=== FILE: README.md ===
# Text adventure game-state engine, in Dafny

This project models the core of a small Portuguese-language text adventure.
The player walks through a graph of rooms and carries a limited number of
items. They type commands such as `norte`, `pegar faca`, `largar faca`,
`ajuda` and `sair`.

The model covers:

- the room's item store (`Room.get_item`, `Room.add_item`);
- the player's inventory with its `max_itens` limit (`Player.take_item`,
  `Player.drop_item`, `Player.move`);
- the map: sorting the parsed map document into rooms and exits, and looking
  rooms up (`GameMap._load_map` after JSON parsing, `get_room`,
  `get_start_room`, `get_exit_room_name`);
- the command interpreter (`GameController.handle_command` with
  `_handle_move`, `_handle_take`, `_handle_drop`);
- the game loop of `start_game` over the lines the player types, with its
  victory test and its ENTER pauses.

The whole game is one immutable `GameController.State`. It holds the map,
the player, the `running` flag and the pending feedback message. The player's
current room is a room *name*. In the Python program the player holds the `Room`
object that also sits in the map's table, so changing that room's items
changes both; here `WithHere` updates the table entry. Each command is a pure
step `HandleCommand(state, line)` over a line that has already been read.

Modules follow the source files:

| file | module | models |
|---|---|---|
| `room.dfy` | `Room` | `app/model/room.py` |
| `player.dfy` | `Player` | `app/model/player.py` |
| `game_map.dfy` | `GameMap` | `app/model/game_map.py` |
| `game_controller.dfy` | `GameController` | `app/controller/game_controller.py` |
| `text.dfy` | `Text` | `str.lower()`, `str.split()`, `str.upper()` |
| `dict.dfy` | `Dict` | `dict.get`, `dict.pop(k, None)` |
| `json.dfy` | `Json` | the parsed JSON document |
| `wrappers.dfy` | `Wrappers` | `Option` / `Result` |

Main results:

- **Capacity.** No command lets the inventory grow past `max_itens`
  (`HandleCommand`'s `Inv(s) ==> Inv(s')`). The same holds across any
  game (`GameLoop`, `StartGame`), and from a freshly loaded map
  (`CapacityFromStart`).
- **Item transfer.** A take or drop moves an item between the current room
  and the inventory, and the item keeps its description. A full inventory
  puts the item back in the room. A take followed by a drop restores
  everything, and so does a drop followed by a take.
- **Observed edge cases.** An item with an empty description fails the
  truth tests at `game_controller.py:140` and `:154`. It leaves its container
  and lands nowhere. Taking an item whose name is already carried replaces
  the carried one. Each case has a lemma.
- **Interpreter.** A blank line does nothing. Any other line starts from an
  empty message buffer. Every command except `ajuda`, and `usar` on a carried
  item, leaves a message.
  Invalid commands change only the message. Only movement commands change
  the room. The player is always in a room reachable from the start room.

## Model

| member | source | states |
|---|---|---|
| `Room.GetItem` | app/model/room.py:8-12 | A present item is returned with its description, and exactly its key leaves the room. An absent name yields None and the same room. Name, description and exits never change. |
| `Room.AddItem` | app/model/room.py:14-18 | After adding, the name maps to the given description. The keys gain only that name, other entries are unchanged, and an existing entry is overwritten. Name, description and exits never change. |
| `Room.GetThenAddRestores` | app/model/room.py:8-18 | Taking a present item out and adding the result back restores the room exactly. |
| `Room.AddThenGetRestores` | app/model/room.py:8-18 | Adding an item under a fresh name and taking it out returns its description and the original room. |
| `Player.Move` | app/model/player.py:7-9 | Moving replaces the current room and leaves the inventory and its limit untouched. |
| `Player.TakeItem` | app/model/player.py:11-20 | Succeeds exactly when the inventory holds fewer than `max_itens` items. On success the name maps to the description and other entries are kept. On failure the player is unchanged. The limit is preserved. |
| `Player.DropItem` | app/model/player.py:22-31 | A carried name yields its stored description and loses exactly that key, so the size drops by one. A name not carried yields None and the same player. The limit is preserved. |
| `Player.TakeThenDrop` | app/model/player.py:11-31 | Taking a new item with room to spare and then dropping it returns its description and the original inventory. |
| `Player.DropThenTake` | app/model/player.py:11-31 | Dropping a carried item and taking it back succeeds and restores the inventory. |
| `GameMap.ExitsOf` | app/model/game_map.py:25 | A room's exits are all of its keys except `description` and `itens`, with their values; `use` is kept as an exit. |
| `GameMap.Partition` | app/model/game_map.py:15-25 | Fails exactly when some non-setting entry is not an object. Otherwise every key except `main`, `exit` and `max_itens` becomes a room record. Its description and `itens` are the values `.get` reads from the entry, and its exits are the entry's other keys with their values. The settings are the values `.get` reads. |
| `GameMap.ToRoom` | app/model/game_map.py:26 | A room has the record's name, description and exits. Its items are exactly the entries of the `itens` object, each with its string description. |
| `GameMap.Build` | app/model/game_map.py:26 | Each room keeps its record's exits and description. Its items are exactly the entries of the record's `itens` object, with their string descriptions. It fails exactly when some record's `itens` is missing or is not an object whose values are all strings, or some direction exit is a list or an object. The result is well-formed: each room is filed under its own name. |
| `GameMap.Load` | app/model/game_map.py:11-26 | A room entry that is not an object fails the load. A loaded map's `main`, `exit` and `max_itens` settings are the values `.get` reads from the document. |
| `GameMap.LoadRooms` | app/model/game_map.py:19-26 | After loading, the rooms are exactly the non-setting keys, each named by its key. A room's description is its entry's `description`. Its exits are the entry's keys minus `description` and `itens`, with their values. Its items are the entries of its `itens` object, with their descriptions. |
| `GameMap.GetRoom` | app/model/game_map.py:28-32 | Returns the room for a known name and None for an unknown one; it has no precondition. |
| `GameMap.GetStartRoom` | app/model/game_map.py:34-38 | Equals `GetRoom` of the `main` setting. It is None when that name has no room or the setting is not a string. |
| `GameMap.LoadExitRoomName` | app/model/game_map.py:40-44 | `GetExitRoomName` of a loaded map is exactly the document's `exit` value as `.get` reads it at line 16: absent, a string or any other value. |
| `Text.Split` | app/controller/game_controller.py:81 | Every token is non-empty and free of whitespace. There are no tokens exactly when the line is all whitespace. |
| `Text.Lower` | app/controller/game_controller.py:81 | Keeps the length. Each ASCII or Latin-1 upper-case letter becomes the character 32 code points above it, which is its lower-case letter. Every other character is kept. |
| `Text.Upper` | app/controller/game_controller.py:128 | Keeps the length. Each ASCII lower-case letter becomes the character 32 code points below it, its upper-case letter, and every other character is kept. This is `upper()` on the four direction words it is applied to. |
| `Text.SplitJoin` | app/controller/game_controller.py:81 | Splitting words joined by single spaces gives the words back. |
| `Text.SplitSkipsSpace` | app/controller/game_controller.py:81 | Leading whitespace of any length does not change the split. |
| `Text.SplitCons` | app/controller/game_controller.py:81 | A word after whitespace, and followed by whitespace or the end of the line, is the first token; the rest of the line gives the other tokens. |
| `Text.SplitInterleave` | app/controller/game_controller.py:81 | Splitting words laid out with any whitespace gives the words back in order. The whitespace may be empty only before the first word and after the last. |
| `Text.LowerIdempotent` | app/controller/game_controller.py:81 | A lowered line has no upper-case letters, and lowering it again changes nothing. |
| `GameController.ParseLine` | app/controller/game_controller.py:81-86 | None exactly for a blank line. Otherwise the verb, and the target when present, are lower-case whitespace-free tokens. |
| `GameController.ParseWords` | app/controller/game_controller.py:81-86 | For a line of lower-case words, the verb is the first word and the target the second or None; further words are ignored. |
| `GameController.ParseSeparated` | app/controller/game_controller.py:81-86 | For lower-case words separated and surrounded by any whitespace, the verb is the first word and the target the second or None. |
| `GameController.ParseVerbTarget` | app/controller/game_controller.py:81-86 | A verb, one space and a target parse as that verb with that target. |
| `GameController.ParseIgnoresCase` | app/controller/game_controller.py:81 | Lower-casing a line first does not change how it parses. |
| `GameController.Classify` | app/controller/game_controller.py:91-106 | A movement verb selects the move with that direction. `pegar`, `largar` and `usar` select their handlers exactly when a target is present, and pass it on. `sair` selects quitting and `ajuda` the help. Anything else is invalid. |
| `GameController.Translate` | app/controller/game_controller.py:111-117 | `norte`, `sul`, `leste` and `oeste` select the exit keys `north`, `south`, `east` and `west` respectively. Every other word selects no exit. |
| `GameController.HandleMove` | app/controller/game_controller.py:109-132 | A missing exit gives the "cannot go" message. An exit naming no room gives the map-error message. Both leave the room unchanged. Otherwise the player moves to the named room, which is adjacent. Map, inventory and limit never change. |
| `GameController.HandleTake` | app/controller/game_controller.py:134-147 | Only the current room's items and the inventory change, and the inventory limit is preserved. |
| `GameController.HandleDrop` | app/controller/game_controller.py:149-158 | Only the current room's items and the inventory change, and the inventory limit is preserved. |
| `GameController.HandleUse` | app/controller/game_controller.py:176-182 | `usar` on an item not carried sets the not-carried message and changes nothing else. |
| `GameController.Dispatch` | app/controller/game_controller.py:91-106 | Every handler keeps the map layout and the limit. The player stays put or moves to an adjacent room. |
| `GameController.HandleCommand` | app/controller/game_controller.py:77-106 | A blank line leaves the state as it was. No command breaks the capacity invariant, changes the layout or moves the player to a non-adjacent room. |
| `GameController.TakeAbsent` | app/controller/game_controller.py:146-147 | Taking an item not in the room changes only the message. |
| `GameController.TakeMovesItem` | app/controller/game_controller.py:138-142 | Taking a new item with room to spare moves it, with its description, from the room into the inventory. The total item count is conserved. |
| `GameController.TakeWhenFull` | app/controller/game_controller.py:143-145 | With a full inventory the item is put back: map and player are as before, and the "inventory full" message is set. |
| `GameController.TakeLosesEmptyItem` | app/controller/game_controller.py:138-140 | An item with an empty description is removed from the room, not carried, and reported as absent. |
| `GameController.TakeReplacesHeldItem` | app/controller/game_controller.py:141-142 | Taking an item whose name is already carried overwrites the carried one, so one item disappears. |
| `GameController.DropAbsent` | app/controller/game_controller.py:152-158 | Dropping an item not carried changes only the message. |
| `GameController.DropMovesItem` | app/controller/game_controller.py:152-156 | Dropping a carried item moves it, with its description, into the current room. The count is conserved when the room had no item of that name. |
| `GameController.DropLosesEmptyItem` | app/controller/game_controller.py:152-158 | An item with an empty description leaves the inventory, goes nowhere, and is reported as not carried. |
| `GameController.TakeThenDropRestores` | app/controller/game_controller.py:134-158 | A take followed by a drop of a new item restores the map and the inventory. |
| `GameController.DropThenTakeRestores` | app/controller/game_controller.py:134-158 | A drop followed by a take of a carried item restores the map and the inventory. |
| `GameController.FeedbackReplaced` | app/controller/game_controller.py:88-89 | For any non-blank line the result does not depend on the previous message. |
| `GameController.FeedbackSet` | app/controller/game_controller.py:89-106 | Every non-blank command except `ajuda` leaves a non-empty message. The exception is `usar` on a carried item, which is not modelled. |
| `GameController.HelpChangesNothing` | app/controller/game_controller.py:102-103 | `ajuda` only clears the message. |
| `GameController.InvalidCommandChangesNothing` | app/controller/game_controller.py:93-106 | Unknown verbs, and `pegar`, `largar` or `usar` without a target, set the invalid-command message and change nothing else. |
| `GameController.QuitStops` | app/controller/game_controller.py:99-101 | `sair` sets `running` to false and the farewell message and changes nothing else. |
| `GameController.OnlyMovesChangeRoom` | app/controller/game_controller.py:91-92 | If a command changed the player's room, its verb was a movement verb. |
| `GameController.ExitReachedOnlyByMoving` | app/controller/game_controller.py:65 | Whether the player stands in the exit room changes only through a movement command. |
| `GameController.TakeCommand` | app/controller/game_controller.py:93-94 | A line parsing as `pegar` with a target runs the take handler after clearing the message. |
| `GameController.DropCommand` | app/controller/game_controller.py:95-96 | A line parsing as `largar` with a target runs the drop handler after clearing the message. |
| `GameController.TakeCommandThenDropCommand` | app/controller/game_controller.py:93-96 | A `pegar` line then a `largar` line for a new item restores the map and the inventory. |
| `GameController.ReachedExit` | app/controller/game_controller.py:65 | True exactly when the `exit` setting is the string naming the player's room. |
| `GameController.GameLoop` | app/controller/game_controller.py:44-75 | A stopped game reads no line. The layout and `max_itens` never change, and the inventory never exceeds the limit. The game never ends with the player in the exit room and still running. |
| `GameController.StartGame` | app/controller/game_controller.py:35-44 | The layout is kept and the capacity invariant holds throughout. The player can move only if at least two lines are typed, because the first one answers the opening pause. |
| `GameController.VictoryEndsLoop` | app/controller/game_controller.py:56-69 | In the exit room the game stops on the next turn: the message is cleared, `running` becomes false, and no line is run. |
| `GameController.QuitEndsLoop` | app/controller/game_controller.py:44-75 | A `sair` line stops the loop with the farewell message pending; later lines are never run. |
| `GameController.HelpDiscardsPauseLine` | app/controller/game_controller.py:160-174 | After `ajuda` the next line only answers the pause; play continues from the line after it. |
| `GameController.LoopStaysReachable` | app/controller/game_controller.py:44-75 | Throughout the game, the player's room is reachable from the starting room through direction exits. |
| `GameController.Init` | app/controller/game_controller.py:14-33 | Start-up fails exactly when the start setting cannot be looked up, names no room, or `max_itens` is not a number. Otherwise the player is in the start room with an empty inventory, the game is running and no message is pending. |
| `GameController.NewGame` | app/controller/game_controller.py:14-21 | A freshly loaded game stands in the room `main` names. Its limit is the document's `max_itens`, its rooms are the non-setting keys, and it meets the capacity invariant when the limit is non-negative. |
| `GameController.CapacityFromStart` | app/controller/game_controller.py:17-21 | From a freshly loaded game with a non-negative limit, no input makes the inventory exceed the limit. |

## Left out

- `_handle_usar` for a carried item (game_controller.py:179-180): line 180 does not parse as Python, and `Room.get_useItem` does not exist. `HandleUse` models only the not-carried branch. On a carried item it leaves the state as it is.
- Room construction (game_map.py:26) passes five arguments, including `use`, to a four-parameter constructor, so in Python it would raise. The model builds rooms from the four fields the constructor stores.
- File opening and JSON parsing (game_map.py:12-13): the model starts from the parsed top-level object. JSON numbers are integers only; floats are not modelled.
- GameMap.Build: rejects at load time three kinds of map that the Python program loads without complaint.
  - A room whose `itens` is missing or is not an object. A missing `itens` is stored as `None` (game_map.py:22).
    - A value that is truthy but not an object fails when the room is shown, at `.items()` (game_view.py:40).
    - A falsy value (`None`, `[]`, `""`, `0`, `false`) is shown as a room without items (game_view.py:39,43). It fails only at the first `pegar` in that room (room.py:12) or the first successful `largar` there (room.py:18).
  - A room whose `itens` object holds a value that is not a string, such as `{"faca": 5}`. The Python program plays on with it. The model types item descriptions as strings, so it does not model such maps.
  - A room with a direction exit that is a list or an object. The Python program fails when the room is first shown (game_view.py:32).
- Exit values that are not strings are accepted by the model, except direction exits that are lists or objects. This covers a null or numeric direction exit and any non-string `use` value. The Python program cannot show such a room: game_view.py:32 calls `capitalize()` on every exit value, reached from game_controller.py:61 before each command. The model does not include the view, so it plays on in such a room. As a result, `HandleMove`'s map-error branch for a non-string exit cannot be reached in the Python program. Its branch for a string naming no room can.
- GameController.Init: rejects a map whose start room cannot be found, or whose `max_itens` is not a number. In the source the first fails when the first screen is drawn, and the second at the first `pegar` that finds an item with a non-empty description, where player.py:16 compares against it. A boolean `max_itens`, which Python would compare as 0 or 1, is not modelled. The code has no default for `max_itens`, and neither does the model.
- GameMap.GetStartRoom: a `main` setting that is a list or object would raise `TypeError`. The model excludes it by precondition, and `Init` reports it as `StartNameUnhashable`.
- Text.Lower: models `str.lower()` on ASCII and Latin-1 upper-case letters only. Other Unicode case mappings are not modelled, including those that change a string's length.
- Text.Upper: models `str.upper()` on ASCII letters only. It is applied only to the four direction words, which are ASCII, so nothing observable is lost.
- The game loop (`start_game`, game_controller.py:35-75) is modelled by `GameLoop` and `StartGame` over lines already read. Screen clearing and printing are left out. Each ENTER pause is modelled as reading one line that is discarded. The input ending, where Python's `input()` would raise `EOFError`, is modelled as the loop stopping.
- `_display_help` and all of app/view/game_view.py are left out; they are terminal output. `ajuda` changes no state beyond clearing the message.
- Monster encounters, locked exits, key items and item-use effects are left out: none of them is implemented in these source files.

=== FILE: dict.dfy ===
/** The two Python dictionary operations the game is built from. */
module Dict {
  import opened Wrappers

  /** `m.get(k)`: the value stored under `k`, or `None`. */
  function Get<K, V>(m: map<K, V>, k: K): Option<V> {
    if k in m then Some(m[k]) else None
  }

  /** `m.pop(k, None)`: removes `k` and yields its value; yields `None` and
      leaves the map alone when `k` is absent. */
  function Pop<K, V>(m: map<K, V>, k: K): (r: (map<K, V>, Option<V>))
    ensures r.1.Some? <==> k in m
    ensures k in m ==> r.1.value == m[k] && r.0.Keys == m.Keys - {k} && |r.0| == |m| - 1
    ensures k !in m ==> r.0 == m
    ensures forall j :: j in r.0 ==> j in m && r.0[j] == m[j]
  {
    if k in m then (m - {k}, Some(m[k])) else (m, None)
  }

  /** Putting a popped entry back restores the map. */
  lemma PopThenStore<K, V>(m: map<K, V>, k: K)
    requires k in m
    ensures Pop(m, k).0[k := m[k]] == m
  {
    var m' := Pop(m, k).0[k := m[k]];
    assert m'.Keys == m.Keys;
  }

  /** Popping an entry just stored under a fresh key restores the map. */
  lemma StoreThenPop<K, V>(m: map<K, V>, k: K, v: V)
    requires k !in m
    ensures Pop(m[k := v], k) == (m, Some(v))
  {
    var m' := m[k := v] - {k};
    assert m'.Keys == m.Keys;
    assert forall j :: j in m' ==> m'[j] == m[j];
    assert m' == m;
  }
}

=== FILE: game_controller.dfy ===
/** The command interpreter: one line of player input turns the game state
    into the next one, leaving a single feedback message for the screen. */
module GameController {
  import opened Wrappers
  import opened Json
  import opened Text
  import Dict
  import Room
  import Player
  import GameMap

  /** Everything a command can read or change. The player's room is a name
      in the map's room table. */
  datatype State = State(
    gameMap: GameMap.GameMap,
    player: Player.Player,
    running: bool,
    feedback: string)

  /** What the interpreter relies on: a well-formed map and a player standing
      in one of its rooms. */
  predicate Ready(s: State) {
    GameMap.WellFormed(s.gameMap) && s.player.currentRoom in s.gameMap.rooms
  }

  /** `Ready` plus the inventory limit. */
  predicate Inv(s: State) {
    Ready(s) && Player.WithinCapacity(s.player)
  }

  function Here(s: State): Room.Room
    requires Ready(s)
  {
    s.gameMap.rooms[s.player.currentRoom]
  }

  /** Two maps that differ at most in the items lying in their rooms. */
  predicate SameLayout(a: GameMap.GameMap, b: GameMap.GameMap) {
    && a.rooms.Keys == b.rooms.Keys
    && (forall k :: k in a.rooms ==> Room.SameFixture(a.rooms[k], b.rooms[k]))
    && a.startRoomName == b.startRoomName
    && a.exitRoomName == b.exitRoomName
    && a.maxItens == b.maxItens
  }

  /** The state with the player's room replaced; the room object the player
      holds is the one in the map, so both change together. */
  function WithHere(s: State, room: Room.Room): (s': State)
    requires Ready(s)
    requires Room.SameFixture(room, Here(s))
    ensures Ready(s') && Here(s') == room
    ensures SameLayout(s.gameMap, s'.gameMap)
    ensures forall k :: k in s.gameMap.rooms && k != s.player.currentRoom ==> s'.gameMap.rooms[k] == s.gameMap.rooms[k]
    ensures s'.player == s.player && s'.running == s.running && s'.feedback == s.feedback
  {
    s.(gameMap := s.gameMap.(rooms := s.gameMap.rooms[s.player.currentRoom := room]))
  }

  /** The exit `direction` of `room` names the room `target`. */
  predicate ExitsTo(room: Room.Room, direction: string, target: string) {
    direction in room.exits && room.exits[direction] == Str(target)
  }

  /** One movement command can lead from room `a` to room `b`. */
  ghost predicate Adjacent(gm: GameMap.GameMap, a: string, b: string) {
    && a in gm.rooms && b in gm.rooms
    && exists direction :: direction in GameMap.Directions && ExitsTo(gm.rooms[a], direction, b)
  }

  // Feedback messages.

  const Farewell: string := "Encerrando o jogo. Até a próxima!"
  const InvalidCommand: string :=
    "Comando inválido. Tente 'norte', 'pegar [item]', 'largar [item]', 'ajuda' ou 'sair'."
  const MapError: string := "Erro no mapa: Sala de destino não encontrada."
  const CannotGo: string := "Você não pode ir nessa direção."
  const InventoryFull: string := "Seu inventário está cheio! Você precisa largar algo antes."

  function MovedTo(direction: string): string {
    "Você se moveu para o " + Upper(direction) + "."
  }

  function Took(itemName: string): string {
    "Você pegou '" + itemName + "'."
  }

  function NotInRoom(itemName: string): string {
    "Não há '" + itemName + "' nesta sala."
  }

  function Dropped(itemName: string): string {
    "Você largou '" + itemName + "' na sala."
  }

  function NotHeld(itemName: string): string {
    "Você não tem '" + itemName + "' no seu inventário."
  }

  // Parsing.

  /** The four movement verbs. */
  const MoveVerbs: set<string> := {"norte", "sul", "leste", "oeste"}

  /** The movement verb's exit key in the map document. */
  function Translate(direction: string): (r: Option<string>)
    ensures r.Some? <==> direction in MoveVerbs
    ensures r.Some? ==> r.value in GameMap.Directions
    ensures direction == "norte" <==> r == Some("north")
    ensures direction == "sul" <==> r == Some("south")
    ensures direction == "leste" <==> r == Some("east")
    ensures direction == "oeste" <==> r == Some("west")
  {
    if direction == "norte" then Some("north")
    else if direction == "sul" then Some("south")
    else if direction == "leste" then Some("east")
    else if direction == "oeste" then Some("west")
    else None
  }

  /** The verb and, when given, the first argument of a line. */
  datatype Parsed = Parsed(action: string, target: Option<string>)

  /** Lower-cases and splits the line; `None` for a blank line. Tokens after
      the second are dropped. */
  function ParseLine(line: string): (p: Option<Parsed>)
    ensures p.None? <==> AllSpace(line)
    ensures p.Some? ==> IsWord(p.value.action) && IsLower(p.value.action)
    ensures p.Some? && p.value.target.Some? ==> IsWord(p.value.target.value) && IsLower(p.value.target.value)
  {
    LowerKeepsSpace(line);
    LowerIdempotent(line);
    SplitKeepsLower(Lower(line));
    var parts := Split(Lower(line));
    if parts == [] then None
    else Some(Parsed(parts[0], if |parts| > 1 then Some(parts[1]) else None))
  }

  /** The handler a parsed line is sent to. */
  datatype Command =
    | Go(direction: string)
    | Take(itemName: string)
    | Drop(itemName: string)
    | Use(itemName: string)
    | Quit
    | Help
    | Unknown

  /** Dispatch on the verb. A target, being a token, is never empty, so "has
      a target" is the truthiness test of the Python program. */
  function Classify(p: Parsed): (cmd: Command)
    ensures cmd.Go? <==> p.action in MoveVerbs
    ensures cmd.Go? ==> cmd.direction == p.action
    ensures cmd.Take? <==> p.action == "pegar" && p.target.Some?
    ensures cmd.Drop? <==> p.action == "largar" && p.target.Some?
    ensures cmd.Use? <==> p.action == "usar" && p.target.Some?
    ensures (cmd.Take? || cmd.Drop? || cmd.Use?) ==> p.target == Some(cmd.itemName)
    ensures cmd.Quit? <==> p.action == "sair"
    ensures cmd.Help? <==> p.action == "ajuda"
  {
    if p.action in MoveVerbs then Go(p.action)
    else if p.action == "pegar" && p.target.Some? then Take(p.target.value)
    else if p.action == "largar" && p.target.Some? then Drop(p.target.value)
    else if p.action == "usar" && p.target.Some? then Use(p.target.value)
    else if p.action == "sair" then Quit
    else if p.action == "ajuda" then Help
    else Unknown
  }

  // Handlers.

  /** The exit the movement verb selects in the current room, if any. */
  predicate HasExit(s: State, direction: string)
    requires Ready(s)
  {
    Translate(direction).Some? && Translate(direction).value in Here(s).exits
  }

  /** The room name stored under the selected exit, if it is a string. */
  function ExitTarget(s: State, direction: string): Option<string>
    requires Ready(s) && HasExit(s, direction)
  {
    match Here(s).exits[Translate(direction).value]
    case Str(n) => Some(n)
    case _ => None
  }

  /** Moves through the exit when it exists and names a room of the map. */
  function HandleMove(s: State, direction: string): (s': State)
    requires Ready(s)
    ensures Ready(s')
    ensures s'.gameMap == s.gameMap && s'.running == s.running
    ensures s'.player.itens == s.player.itens && s'.player.maxItens == s.player.maxItens
    ensures !HasExit(s, direction) ==> s' == s.(feedback := CannotGo)
    ensures (HasExit(s, direction) && (ExitTarget(s, direction).None? || ExitTarget(s, direction).value !in s.gameMap.rooms))
              ==> s' == s.(feedback := MapError)
    ensures s'.player.currentRoom != s.player.currentRoom ==>
              && HasExit(s, direction)
              && Here(s).exits[Translate(direction).value] == Str(s'.player.currentRoom)
              && s'.feedback == MovedTo(direction)
    ensures s'.player.currentRoom != s.player.currentRoom ==> Adjacent(s.gameMap, s.player.currentRoom, s'.player.currentRoom)
    ensures (HasExit(s, direction) && ExitTarget(s, direction).Some? && ExitTarget(s, direction).value in s.gameMap.rooms)
              ==> s'.player.currentRoom == ExitTarget(s, direction).value && s'.feedback == MovedTo(direction)
  {
    var jsonDirection := Translate(direction);
    var exits := Here(s).exits;
    if jsonDirection.Some? && jsonDirection.value in exits then
      var next := match exits[jsonDirection.value]
        case Str(n) => GameMap.GetRoom(s.gameMap, n)
        case _ => None;
      if next.Some? then
        assert ExitsTo(Here(s), jsonDirection.value, next.value.name);
        s.(player := Player.Move(s.player, next.value.name), feedback := MovedTo(direction))
      else
        s.(feedback := MapError)
    else
      s.(feedback := CannotGo)
  }

  /** Python's truth test on the value `get_item`/`drop_item` returns. */
  predicate Truthy(d: Option<string>) {
    d.Some? && d.value != ""
  }

  /** Moves an item from the room into the inventory. The item is first taken
      out of the room; it goes back when the inventory is full, and is lost
      when its description is empty. */
  function HandleTake(s: State, itemName: string): (s': State)
    requires Ready(s)
    ensures Ready(s')
    ensures s'.running == s.running && s'.player.currentRoom == s.player.currentRoom
    ensures s'.player.maxItens == s.player.maxItens
    ensures SameLayout(s.gameMap, s'.gameMap)
    ensures forall k :: k in s.gameMap.rooms && k != s.player.currentRoom ==> s'.gameMap.rooms[k] == s.gameMap.rooms[k]
    ensures Player.WithinCapacity(s.player) ==> Player.WithinCapacity(s'.player)
  {
    var (room', found) := Room.GetItem(Here(s), itemName);
    var s1 := WithHere(s, room');
    if Truthy(found) then
      var (player', ok) := Player.TakeItem(s.player, itemName, found.value);
      if ok then
        s1.(player := player', feedback := Took(itemName))
      else
        Room.GetThenAddRestores(Here(s), itemName);
        assert s.gameMap.rooms[s.player.currentRoom := Here(s)] == s.gameMap.rooms;
        WithHere(s1, Room.AddItem(room', itemName, found.value)).(feedback := InventoryFull)
    else
      assert found.None? ==> s.gameMap.rooms[s.player.currentRoom := Here(s)] == s.gameMap.rooms;
      s1.(feedback := NotInRoom(itemName))
  }

  /** Moves an item from the inventory into the room, replacing a room item of
      the same name. An item with an empty description is lost. */
  function HandleDrop(s: State, itemName: string): (s': State)
    requires Ready(s)
    ensures Ready(s')
    ensures s'.running == s.running && s'.player.currentRoom == s.player.currentRoom
    ensures s'.player.maxItens == s.player.maxItens
    ensures SameLayout(s.gameMap, s'.gameMap)
    ensures forall k :: k in s.gameMap.rooms && k != s.player.currentRoom ==> s'.gameMap.rooms[k] == s.gameMap.rooms[k]
    ensures Player.WithinCapacity(s.player) ==> Player.WithinCapacity(s'.player)
  {
    var (player', found) := Player.DropItem(s.player, itemName);
    var s1 := s.(player := player');
    if Truthy(found) then
      WithHere(s1, Room.AddItem(Here(s), itemName, found.value)).(feedback := Dropped(itemName))
    else
      s1.(feedback := NotHeld(itemName))
  }

  /** `usar` on an item not carried reports it. Using a carried item is not
      modelled: the state is left as it was. */
  function HandleUse(s: State, itemName: string): (s': State)
    ensures itemName !in s.player.itens ==> s' == s.(feedback := NotHeld(itemName))
    ensures itemName in s.player.itens ==> s' == s
  {
    if itemName in s.player.itens then s else s.(feedback := NotHeld(itemName))
  }

  function Dispatch(s: State, cmd: Command): (s': State)
    requires Ready(s)
    ensures Ready(s')
    ensures SameLayout(s.gameMap, s'.gameMap)
    ensures s'.player.currentRoom == s.player.currentRoom || Adjacent(s.gameMap, s.player.currentRoom, s'.player.currentRoom)
    ensures !cmd.Go? ==> s'.player.currentRoom == s.player.currentRoom
    ensures Player.WithinCapacity(s.player) ==> Player.WithinCapacity(s'.player)
    ensures s'.player.maxItens == s.player.maxItens
  {
    match cmd
    case Go(direction) => HandleMove(s, direction)
    case Take(itemName) => HandleTake(s, itemName)
    case Drop(itemName) => HandleDrop(s, itemName)
    case Use(itemName) => HandleUse(s, itemName)
    case Quit => s.(feedback := Farewell, running := false)
    case Help => s
    case Unknown => s.(feedback := InvalidCommand)
  }

  /** `handle_command`: a blank line does nothing; any other line clears the
      feedback and runs its handler. */
  function HandleCommand(s: State, line: string): (s': State)
    requires Ready(s)
    ensures Ready(s')
    ensures AllSpace(line) ==> s' == s
    ensures Inv(s) ==> Inv(s')
    ensures SameLayout(s.gameMap, s'.gameMap)
    ensures s'.player.currentRoom == s.player.currentRoom || Adjacent(s.gameMap, s.player.currentRoom, s'.player.currentRoom)
    ensures s'.player.maxItens == s.player.maxItens
  {
    match ParseLine(line)
    case None => s
    case Some(p) => Dispatch(s.(feedback := ""), Classify(p))
  }

  /** The player stands in the room the `exit` setting names. */
  predicate ReachedExit(s: State): (r: bool)
    requires Ready(s)
    ensures r <==> s.gameMap.exitRoomName == Some(Str(s.player.currentRoom))
  {
    GameMap.GetExitRoomName(s.gameMap) == Some(Str(Here(s).name))
  }

  // Item transfer outcomes.

  /** Two layouts that agree on one room and on every other room are equal. */
  lemma SameRooms(a: GameMap.GameMap, b: GameMap.GameMap, cur: string)
    requires SameLayout(a, b) && cur in a.rooms && a.rooms[cur] == b.rooms[cur]
    requires forall k :: k in a.rooms && k != cur ==> b.rooms[k] == a.rooms[k]
    ensures a == b
  {
    assert a.rooms == b.rooms;
  }

  /** Taking an item that is not in the room changes only the message. */
  lemma TakeAbsent(s: State, itemName: string)
    requires Ready(s) && itemName !in Here(s).items
    ensures HandleTake(s, itemName) == s.(feedback := NotInRoom(itemName))
  {
  }

  /** A successful take moves the item, with its description, from the room
      into the inventory; no item appears or disappears. */
  lemma TakeMovesItem(s: State, itemName: string)
    requires Ready(s) && itemName in Here(s).items && Here(s).items[itemName] != ""
    requires itemName !in s.player.itens
    requires |s.player.itens| < s.player.maxItens
    ensures var s' := HandleTake(s, itemName);
      && itemName !in Here(s').items
      && itemName in s'.player.itens && s'.player.itens[itemName] == Here(s).items[itemName]
      && Here(s').items == Here(s).items - {itemName}
      && s'.player.itens == s.player.itens[itemName := Here(s).items[itemName]]
      && |Here(s').items| + |s'.player.itens| == |Here(s).items| + |s.player.itens|
      && s'.feedback == Took(itemName)
  {
    var s' := HandleTake(s, itemName);
    var d := Here(s).items[itemName];
    assert Here(s').items == Here(s).items - {itemName} by {
      assert Here(s').items.Keys == (Here(s).items - {itemName}).Keys;
    }
    assert s'.player.itens == s.player.itens[itemName := d];
  }

  /** With a full inventory the item goes back into the room: the map and the
      player are as before. */
  lemma TakeWhenFull(s: State, itemName: string)
    requires Ready(s) && itemName in Here(s).items && Here(s).items[itemName] != ""
    requires |s.player.itens| >= s.player.maxItens
    ensures HandleTake(s, itemName) == s.(feedback := InventoryFull)
  {
    var s' := HandleTake(s, itemName);
    Room.GetThenAddRestores(Here(s), itemName);
    assert Here(s') == Here(s);
    SameRooms(s.gameMap, s'.gameMap, s.player.currentRoom);
  }

  /** An item whose description is empty fails the truth test: it is taken
      out of the room, reported as absent and not carried. */
  lemma TakeLosesEmptyItem(s: State, itemName: string)
    requires Ready(s) && itemName in Here(s).items && Here(s).items[itemName] == ""
    ensures var s' := HandleTake(s, itemName);
      && Here(s').items == Here(s).items - {itemName}
      && s'.player == s.player
      && s'.feedback == NotInRoom(itemName)
  {
    var s' := HandleTake(s, itemName);
    assert Here(s').items.Keys == (Here(s).items - {itemName}).Keys;
  }

  /** Taking an item under a name already carried replaces the carried one:
      the inventory does not grow, and one item is gone. */
  lemma TakeReplacesHeldItem(s: State, itemName: string)
    requires Ready(s) && itemName in Here(s).items && Here(s).items[itemName] != ""
    requires itemName in s.player.itens
    requires |s.player.itens| < s.player.maxItens
    ensures var s' := HandleTake(s, itemName);
      && |s'.player.itens| == |s.player.itens|
      && s'.player.itens[itemName] == Here(s).items[itemName]
      && |Here(s').items| + |s'.player.itens| == |Here(s).items| + |s.player.itens| - 1
  {
    var s' := HandleTake(s, itemName);
    assert s'.player.itens.Keys == s.player.itens.Keys;
  }

  /** Dropping an item not carried changes only the message. */
  lemma DropAbsent(s: State, itemName: string)
    requires Ready(s) && itemName !in s.player.itens
    ensures HandleDrop(s, itemName) == s.(feedback := NotHeld(itemName))
  {
  }

  /** A successful drop moves the item, with its description, from the
      inventory into the room; when the room holds no item of that name, no
      item appears or disappears. */
  lemma DropMovesItem(s: State, itemName: string)
    requires Ready(s) && itemName in s.player.itens && s.player.itens[itemName] != ""
    ensures var s' := HandleDrop(s, itemName);
      && itemName !in s'.player.itens
      && itemName in Here(s').items && Here(s').items[itemName] == s.player.itens[itemName]
      && s'.player.itens == s.player.itens - {itemName}
      && |s'.player.itens| == |s.player.itens| - 1
      && Here(s').items == Here(s).items[itemName := s.player.itens[itemName]]
      && (itemName !in Here(s).items ==>
            |Here(s').items| + |s'.player.itens| == |Here(s).items| + |s.player.itens|)
      && s'.feedback == Dropped(itemName)
  {
    var s' := HandleDrop(s, itemName);
    assert s'.player.itens == s.player.itens - {itemName} by {
      assert s'.player.itens.Keys == (s.player.itens - {itemName}).Keys;
    }
  }

  /** An item whose description is empty is removed from the inventory,
      reported as not carried, and placed nowhere. */
  lemma DropLosesEmptyItem(s: State, itemName: string)
    requires Ready(s) && itemName in s.player.itens && s.player.itens[itemName] == ""
    ensures var s' := HandleDrop(s, itemName);
      && s'.player.itens == s.player.itens - {itemName}
      && s'.gameMap == s.gameMap
      && s'.feedback == NotHeld(itemName)
  {
    var s' := HandleDrop(s, itemName);
    assert s'.player.itens.Keys == (s.player.itens - {itemName}).Keys;
  }

  /** Taking an item and dropping it again restores the room and the inventory. */
  lemma TakeThenDropRestores(s: State, itemName: string)
    requires Ready(s) && itemName in Here(s).items && Here(s).items[itemName] != ""
    requires itemName !in s.player.itens
    requires |s.player.itens| < s.player.maxItens
    ensures var s2 := HandleDrop(HandleTake(s, itemName), itemName);
      s2 == s.(feedback := Dropped(itemName))
  {
    var s1 := HandleTake(s, itemName);
    TakeMovesItem(s, itemName);
    DropMovesItem(s1, itemName);
    var s2 := HandleDrop(s1, itemName);
    Room.GetThenAddRestores(Here(s), itemName);
    assert Here(s2) == Here(s);
    SameRooms(s.gameMap, s2.gameMap, s.player.currentRoom);
    assert s2.player.itens == s.player.itens by {
      assert s2.player.itens.Keys == s.player.itens.Keys;
    }
  }

  /** Dropping an item and taking it back restores the room and the inventory. */
  lemma DropThenTakeRestores(s: State, itemName: string)
    requires Inv(s) && itemName in s.player.itens && s.player.itens[itemName] != ""
    requires itemName !in Here(s).items
    ensures var s2 := HandleTake(HandleDrop(s, itemName), itemName);
      s2 == s.(feedback := Took(itemName))
  {
    var s1 := HandleDrop(s, itemName);
    var d := s.player.itens[itemName];
    DropMovesItem(s, itemName);
    assert Ready(s1) && Here(s1).items[itemName] == d && itemName !in s1.player.itens;
    assert |s1.player.itens| < s1.player.maxItens;
    TakeMovesItem(s1, itemName);
    var s2 := HandleTake(s1, itemName);
    Dict.StoreThenPop(Here(s).items, itemName, d);
    assert Here(s2) == Here(s);
    SameRooms(s.gameMap, s2.gameMap, s.player.currentRoom);
    Dict.PopThenStore(s.player.itens, itemName);
  }

  // Parsing and dispatch.

  /** The verb is the first word and the target the second; further words
      are ignored. */
  lemma ParseWords(words: seq<string>)
    requires |words| >= 1
    requires forall i :: 0 <= i < |words| ==> IsWord(words[i]) && IsLower(words[i])
    ensures ParseLine(Join(words)) == Some(Parsed(words[0], if |words| > 1 then Some(words[1]) else None))
  {
    JoinKeepsLower(words);
    LowerFixesLower(Join(words));
    SplitJoin(words);
  }

  /** A verb and a target separated by one space parse as such. */
  lemma ParseVerbTarget(verb: string, target: string)
    requires IsWord(verb) && IsLower(verb) && IsWord(target) && IsLower(target)
    ensures ParseLine(verb + " " + target) == Some(Parsed(verb, Some(target)))
  {
    ParseWords([verb, target]);
    assert Join([verb, target]) == verb + " " + Join([target]);
  }

  /** However much whitespace of whatever kind separates and surrounds the
      words, the verb is the first word and the target the second. */
  lemma ParseSeparated(words: seq<string>, seps: seq<string>)
    requires |words| >= 1
    requires forall i :: 0 <= i < |words| ==> IsWord(words[i]) && IsLower(words[i])
    requires Separators(seps, |words|)
    ensures ParseLine(Interleave(words, seps)) == Some(Parsed(words[0], if |words| > 1 then Some(words[1]) else None))
  {
    InterleaveKeepsLower(words, seps);
    LowerFixesLower(Interleave(words, seps));
    SplitInterleave(words, seps);
  }

  /** Upper-case letters in the line do not matter. */
  lemma ParseIgnoresCase(line: string)
    ensures ParseLine(Lower(line)) == ParseLine(line)
  {
    LowerIdempotent(line);
  }

  /** Any line but a blank one starts from an empty feedback buffer: the
      message left by the previous command never survives. */
  lemma FeedbackReplaced(s: State, line: string, previous: string)
    requires Ready(s) && !AllSpace(line)
    ensures HandleCommand(s.(feedback := previous), line) == HandleCommand(s, line)
  {
  }

  /** Every command but `ajuda`, and `usar` on a carried item, leaves a
      message. */
  lemma FeedbackSet(s: State, line: string)
    requires Ready(s) && !AllSpace(line)
    requires Classify(ParseLine(line).value) != Help
    requires !(Classify(ParseLine(line).value).Use? && Classify(ParseLine(line).value).itemName in s.player.itens)
    ensures HandleCommand(s, line).feedback != ""
  {
  }

  /** `ajuda` only clears the message; the help text is printed, not stored. */
  lemma HelpChangesNothing(s: State, line: string)
    requires Ready(s) && ParseLine(line).Some? && ParseLine(line).value.action == "ajuda"
    ensures HandleCommand(s, line) == s.(feedback := "")
  {
  }

  /** An unknown verb, or `pegar`, `largar` or `usar` without a target, sets
      the invalid-command message and changes nothing else. */
  lemma InvalidCommandChangesNothing(s: State, line: string)
    requires Ready(s) && ParseLine(line).Some?
    requires var p := ParseLine(line).value;
      && p.action !in MoveVerbs
      && p.action != "sair" && p.action != "ajuda"
      && (p.action == "pegar" || p.action == "largar" || p.action == "usar" ==> p.target.None?)
    ensures HandleCommand(s, line) == s.(feedback := InvalidCommand)
  {
  }

  /** `sair` stops the game with the farewell message, whatever follows it. */
  lemma QuitStops(s: State, line: string)
    requires Ready(s) && ParseLine(line).Some? && ParseLine(line).value.action == "sair"
    ensures HandleCommand(s, line) == s.(running := false, feedback := Farewell)
  {
  }

  /** Only a movement command changes the player's room; everything else
      keeps it. */
  lemma OnlyMovesChangeRoom(s: State, line: string)
    requires Ready(s)
    requires HandleCommand(s, line).player.currentRoom != s.player.currentRoom
    ensures ParseLine(line).Some? && ParseLine(line).value.action in MoveVerbs
  {
    var p := ParseLine(line).value;
    assert HandleCommand(s, line) == Dispatch(s.(feedback := ""), Classify(p));
  }

  /** Whether the player stands in the exit room changes only by moving. */
  lemma ExitReachedOnlyByMoving(s: State, line: string)
    requires Ready(s)
    requires ReachedExit(HandleCommand(s, line)) != ReachedExit(s)
    ensures ParseLine(line).Some? && ParseLine(line).value.action in MoveVerbs
  {
    OnlyMovesChangeRoom(s, line);
  }

  /** A line whose verb is `pegar` and that has a target runs the take
      handler on a cleared message buffer. */
  lemma TakeCommand(s: State, line: string, itemName: string)
    requires Ready(s)
    requires ParseLine(line) == Some(Parsed("pegar", Some(itemName)))
    ensures HandleCommand(s, line) == HandleTake(s.(feedback := ""), itemName)
  {
  }

  /** A line whose verb is `largar` and that has a target runs the drop
      handler on a cleared message buffer. */
  lemma DropCommand(s: State, line: string, itemName: string)
    requires Ready(s)
    requires ParseLine(line) == Some(Parsed("largar", Some(itemName)))
    ensures HandleCommand(s, line) == HandleDrop(s.(feedback := ""), itemName)
  {
  }

  /** The drop handler does not read the message buffer. */
  lemma DropIgnoresFeedback(s: State, itemName: string, previous: string)
    requires Ready(s)
    ensures HandleDrop(s.(feedback := previous), itemName) == HandleDrop(s, itemName)
  {
  }

  /** A `pegar` command followed by a `largar` command for an item not
      carried restores the room and the inventory. Any lines parsing that way
      will do; `ParseVerbTarget` shows `"pegar " + itemName` is one. */
  lemma TakeCommandThenDropCommand(s: State, itemName: string, takeLine: string, dropLine: string)
    requires Ready(s)
    requires ParseLine(takeLine) == Some(Parsed("pegar", Some(itemName)))
    requires ParseLine(dropLine) == Some(Parsed("largar", Some(itemName)))
    requires itemName in Here(s).items && Here(s).items[itemName] != ""
    requires itemName !in s.player.itens
    requires |s.player.itens| < s.player.maxItens
    ensures HandleCommand(HandleCommand(s, takeLine), dropLine) == s.(feedback := Dropped(itemName))
  {
    var s0 := s.(feedback := "");
    TakeCommand(s, takeLine, itemName);
    var s1 := HandleTake(s0, itemName);
    DropCommand(s1, dropLine, itemName);
    DropIgnoresFeedback(s1, itemName, "");
    TakeThenDropRestores(s0, itemName);
  }

  // The game loop.

  /** A line holding the `ajuda` command, after which the game pauses for
      ENTER. */
  predicate IsHelp(line: string) {
    ParseLine(line).Some? && Classify(ParseLine(line).value).Help?
  }

  /** The `while self.running` loop of `start_game` over the lines the player
      types. Each turn shows and clears the pending message, ends the game
      when the player stands in the exit room, and otherwise runs one line.
      The line typed at the ENTER pause after `ajuda` is read and discarded.
      The loop also stops where the input ends. */
  function GameLoop(s: State, lines: seq<string>): (s': State)
    requires Ready(s)
    ensures Ready(s')
    ensures SameLayout(s.gameMap, s'.gameMap)
    ensures Inv(s) ==> Inv(s')
    ensures s'.player.maxItens == s.player.maxItens
    ensures !s.running ==> s' == s
    ensures ReachedExit(s') ==> !s'.running
    decreases |lines|
  {
    if !s.running then s
    else
      var shown := s.(feedback := "");
      if ReachedExit(shown) then shown.(running := false)
      else if lines == [] then shown
      else
        var rest := if IsHelp(lines[0]) && |lines| > 1 then lines[2..] else lines[1..];
        GameLoop(HandleCommand(shown, lines[0]), rest)
  }

  /** `start_game`: the first line answers the opening ENTER pause and is
      discarded; the loop reads the rest. */
  function StartGame(s: State, lines: seq<string>): (s': State)
    requires Ready(s)
    ensures Ready(s') && SameLayout(s.gameMap, s'.gameMap)
    ensures Inv(s) ==> Inv(s')
    ensures s.running && s.player.currentRoom != s'.player.currentRoom ==> |lines| >= 2
  {
    GameLoop(s, if lines == [] then [] else lines[1..])
  }

  /** In the exit room the game ends on the next turn, whatever the input. */
  lemma VictoryEndsLoop(s: State, lines: seq<string>)
    requires Ready(s) && s.running && ReachedExit(s)
    ensures GameLoop(s, lines) == s.(feedback := "", running := false)
  {
  }

  /** `sair` ends the loop with the farewell message pending; the lines after
      it are never read. */
  lemma QuitEndsLoop(s: State, lines: seq<string>)
    requires Ready(s) && s.running && !ReachedExit(s)
    requires |lines| > 0 && ParseLine(lines[0]).Some? && ParseLine(lines[0]).value.action == "sair"
    ensures GameLoop(s, lines) == s.(running := false, feedback := Farewell)
  {
    var shown := s.(feedback := "");
    QuitStops(shown, lines[0]);
    assert !IsHelp(lines[0]);
  }

  /** After `ajuda` the next line only answers the ENTER pause: it is not run
      as a command. */
  lemma HelpDiscardsPauseLine(s: State, line: string, pause: string, rest: seq<string>)
    requires Ready(s) && s.running && !ReachedExit(s)
    requires ParseLine(line).Some? && ParseLine(line).value.action == "ajuda"
    ensures GameLoop(s, [line, pause] + rest) == GameLoop(s.(feedback := ""), rest)
  {
    var shown := s.(feedback := "");
    HelpChangesNothing(shown, line);
    assert IsHelp(line);
    assert ([line, pause] + rest)[0] == line && ([line, pause] + rest)[2..] == rest;
  }

  /** A sequence of rooms each one movement command away from the last. */
  ghost predicate IsWalk(gm: GameMap.GameMap, walk: seq<string>) {
    && |walk| >= 1
    && forall i :: 0 <= i < |walk| - 1 ==> Adjacent(gm, walk[i], walk[i + 1])
  }

  /** Adjacency depends only on the layout, which commands never change. */
  lemma AdjacentSameLayout(a: GameMap.GameMap, b: GameMap.GameMap, x: string, y: string)
    requires SameLayout(a, b)
    ensures Adjacent(a, x, y) <==> Adjacent(b, x, y)
  {
    if Adjacent(a, x, y) {
      var d :| d in GameMap.Directions && ExitsTo(a.rooms[x], d, y);
      assert ExitsTo(b.rooms[x], d, y);
    }
    if Adjacent(b, x, y) {
      var d :| d in GameMap.Directions && ExitsTo(b.rooms[x], d, y);
      assert ExitsTo(a.rooms[x], d, y);
    }
  }

  /** A walk stays a walk when the items in the rooms change. */
  lemma WalkSameLayout(a: GameMap.GameMap, b: GameMap.GameMap, walk: seq<string>)
    requires SameLayout(a, b) && IsWalk(b, walk)
    ensures IsWalk(a, walk)
  {
    forall i | 0 <= i < |walk| - 1
      ensures Adjacent(a, walk[i], walk[i + 1])
    {
      AdjacentSameLayout(a, b, walk[i], walk[i + 1]);
    }
  }

  /** A walk can be extended backwards by one step. */
  lemma ExtendWalk(gm: GameMap.GameMap, room: string, walk: seq<string>)
    requires IsWalk(gm, walk) && Adjacent(gm, room, walk[0])
    ensures IsWalk(gm, [room] + walk)
  {
    var walk' := [room] + walk;
    forall i | 0 <= i < |walk'| - 1
      ensures Adjacent(gm, walk'[i], walk'[i + 1])
    {
      if i > 0 {
        assert walk'[i] == walk[i - 1] && walk'[i + 1] == walk[i];
      }
    }
  }

  /** One command keeps the end of a walk reachable from the player's room. */
  lemma ReachStep(s: State, s1: State, walk: seq<string>)
    requires Ready(s) && SameLayout(s.gameMap, s1.gameMap)
    requires s1.player.currentRoom == s.player.currentRoom || Adjacent(s.gameMap, s.player.currentRoom, s1.player.currentRoom)
    requires IsWalk(s1.gameMap, walk) && walk[0] == s1.player.currentRoom
    ensures exists walk' :: IsWalk(s.gameMap, walk') && walk'[0] == s.player.currentRoom
                           && walk'[|walk'| - 1] == walk[|walk| - 1]
  {
    WalkSameLayout(s.gameMap, s1.gameMap, walk);
    if s1.player.currentRoom != s.player.currentRoom {
      ExtendWalk(s.gameMap, s.player.currentRoom, walk);
      var walk' := [s.player.currentRoom] + walk;
      assert walk'[|walk'| - 1] == walk[|walk| - 1];
      assert IsWalk(s.gameMap, walk') && walk'[0] == s.player.currentRoom;
    }
  }

  /** Throughout the game the player stands in a room reachable from where
      they started by following direction exits. */
  lemma {:induction false} LoopStaysReachable(s: State, lines: seq<string>)
    requires Ready(s)
    ensures exists walk :: IsWalk(s.gameMap, walk) && walk[0] == s.player.currentRoom
                          && walk[|walk| - 1] == GameLoop(s, lines).player.currentRoom
    decreases |lines|
  {
    var shown := s.(feedback := "");
    if !s.running || ReachedExit(shown) || lines == [] {
      assert IsWalk(s.gameMap, [s.player.currentRoom]);
    } else {
      var next := HandleCommand(shown, lines[0]);
      var rest := if IsHelp(lines[0]) && |lines| > 1 then lines[2..] else lines[1..];
      assert GameLoop(s, lines) == GameLoop(next, rest);
      LoopStaysReachable(next, rest);
      var walk :| IsWalk(next.gameMap, walk) && walk[0] == next.player.currentRoom
                  && walk[|walk| - 1] == GameLoop(next, rest).player.currentRoom;
      ReachStep(shown, next, walk);
    }
  }

  // Starting a game.

  /** Why a loaded map cannot start a game. */
  datatype StartError =
    /** The `main` setting is a list or an object: looking it up raises. */
    | StartNameUnhashable
    /** No room is named by the `main` setting. */
    | StartRoomMissing
    /** The `max_itens` setting is not a number. */
    | MaxItensNotNumber

  /** The controller's constructor: the player stands in the start room with
      an empty inventory, the game is running and no message is pending. */
  function Init(gm: GameMap.GameMap): (r: Result<State, StartError>)
    requires GameMap.WellFormed(gm)
    ensures r.Failure? <==>
      || (gm.startRoomName.Some? && !Hashable(gm.startRoomName.value))
      || GameMap.GetStartRoom(gm).None?
      || !(gm.maxItens.Some? && gm.maxItens.value.Num?)
    ensures r.Success? ==> Ready(r.value) && r.value.gameMap == gm
    ensures r.Success? ==> r.value.player.itens == map[] && r.value.running && r.value.feedback == ""
    ensures r.Success? ==> GameMap.GetStartRoom(gm) == Some(Here(r.value))
    ensures r.Success? ==> gm.maxItens == Some(Num(r.value.player.maxItens))
    ensures r.Success? && r.value.player.maxItens >= 0 ==> Inv(r.value)
  {
    if gm.startRoomName.Some? && !Hashable(gm.startRoomName.value) then
      Failure(StartNameUnhashable)
    else
      match GameMap.GetStartRoom(gm)
      case None => Failure(StartRoomMissing)
      case Some(room) =>
        match gm.maxItens
        case Some(Num(n)) => Success(State(gm, Player.Player(room.name, map[], n), true, ""))
        case _ => Failure(MaxItensNotNumber)
  }

  /** Loading the parsed map document and starting the game on it. */
  datatype NewGameError = LoadFailed(loadError: GameMap.LoadError) | StartFailed(startError: StartError)

  function NewGame(doc: map<string, Json>): (r: Result<State, NewGameError>)
    ensures r.Success? ==> Ready(r.value) && r.value.player.itens == map[] && r.value.running
    ensures r.Success? ==> Dict.Get(doc, "main") == Some(Str(r.value.player.currentRoom))
    ensures r.Success? ==> Dict.Get(doc, "max_itens") == Some(Num(r.value.player.maxItens))
    ensures r.Success? ==> r.value.gameMap.rooms.Keys == doc.Keys - GameMap.Reserved
    ensures r.Success? && r.value.player.maxItens >= 0 ==> Inv(r.value)
  {
    match GameMap.Load(doc)
    case Failure(e) => Failure(LoadFailed(e))
    case Success(gm) =>
      GameMap.LoadRooms(doc);
      match Init(gm)
      case Failure(e) => Failure(StartFailed(e))
      case Success(s) => Success(s)
  }

  /** From a freshly loaded game with a non-negative limit, no sequence of
      commands makes the inventory exceed `max_itens`. */
  lemma CapacityFromStart(doc: map<string, Json>, lines: seq<string>)
    requires NewGame(doc).Success?
    requires NewGame(doc).value.player.maxItens >= 0
    ensures |StartGame(NewGame(doc).value, lines).player.itens| <= NewGame(doc).value.player.maxItens
  {
    var s := NewGame(doc).value;
    assert Inv(s);
    assert Inv(StartGame(s, lines));
  }
}

=== FILE: game_map.dfy ===
/** The room graph: loading it from the parsed map document and looking
    rooms up by name. */
module GameMap {
  import opened Wrappers
  import opened Json
  import Dict
  import opened Room

  /** Top-level keys of the map document that are settings, not rooms. */
  const Reserved: set<string> := {"main", "exit", "max_itens"}

  /** Keys of a room record that are not exits. Every other key, `use`
      included, is kept as an exit. */
  const RoomFields: set<string> := {"description", "itens"}

  /** The exit keys that movement looks up. */
  const Directions: set<string> := {"north", "south", "east", "west"}

  /** One room record as the loader reads it, before typing. */
  datatype RoomRecord = RoomRecord(description: Option<Json>, exits: map<string, Json>, itens: Option<Json>)

  /** The document sorted into settings and room records. */
  datatype Layout = Layout(
    startRoomName: Option<Json>,
    exitRoomName: Option<Json>,
    maxItens: Option<Json>,
    rooms: map<string, RoomRecord>)

  datatype LoadError =
    /** Room entries whose value is not a JSON object. */
    | RoomsNotObjects(names: set<string>)
    /** Room entries the game cannot use: `itens` missing or not an object
        of strings, or a direction exit that cannot be a dictionary key. */
    | UnusableRooms(names: set<string>)

  /** The loaded map. Settings keep the raw values `dict.get` returned. */
  datatype GameMap = GameMap(
    rooms: map<string, Room>,
    startRoomName: Option<Json>,
    exitRoomName: Option<Json>,
    maxItens: Option<Json>)

  /** Each room is filed under its own name, and each direction exit can be
      looked up in the room table. */
  predicate WellFormed(gm: GameMap) {
    forall k :: k in gm.rooms ==>
      && gm.rooms[k].name == k
      && forall d :: d in Directions && d in gm.rooms[k].exits ==> Hashable(gm.rooms[k].exits[d])
  }

  /** The exits of a room: all of its keys except the description and the items. */
  function ExitsOf(fields: map<string, Json>): (exits: map<string, Json>)
    ensures exits.Keys == fields.Keys - RoomFields
    ensures forall d :: d in exits ==> exits[d] == fields[d]
    ensures "use" in fields ==> "use" in exits
  {
    map d | d in fields && d !in RoomFields :: fields[d]
  }

  function ReadRoom(fields: map<string, Json>): RoomRecord {
    RoomRecord(Dict.Get(fields, "description"), ExitsOf(fields), Dict.Get(fields, "itens"))
  }

  /** Sorts the top-level keys into settings and rooms. Reading a room record
      that is not an object fails, as `.get` on it would. */
  function Partition(doc: map<string, Json>): (r: Result<Layout, LoadError>)
    ensures r.Failure? <==> exists k :: k in doc && k !in Reserved && !doc[k].Obj?
    ensures r.Failure? ==> r.error.RoomsNotObjects? && r.error.names != {}
    ensures r.Success? ==> r.value.rooms.Keys == doc.Keys - Reserved
    ensures r.Success? ==> forall k :: k in r.value.rooms ==> r.value.rooms[k].exits.Keys == doc[k].fields.Keys - RoomFields
    ensures r.Success? ==> forall k, d :: k in r.value.rooms && d in r.value.rooms[k].exits ==>
      r.value.rooms[k].exits[d] == doc[k].fields[d]
    ensures r.Success? ==> forall k :: k in r.value.rooms ==> r.value.rooms[k].description == Dict.Get(doc[k].fields, "description")
    ensures r.Success? ==> forall k :: k in r.value.rooms ==> r.value.rooms[k].itens == Dict.Get(doc[k].fields, "itens")
    ensures r.Success? ==> r.value.startRoomName == Dict.Get(doc, "main")
    ensures r.Success? ==> r.value.exitRoomName == Dict.Get(doc, "exit")
    ensures r.Success? ==> r.value.maxItens == Dict.Get(doc, "max_itens")
  {
    var bad := set k | k in doc && k !in Reserved && !doc[k].Obj?;
    if bad != {} then
      Failure(RoomsNotObjects(bad))
    else
      var rooms := map k | k in doc && k !in Reserved :: ReadRoom(doc[k].fields);
      Success(Layout(Dict.Get(doc, "main"), Dict.Get(doc, "exit"), Dict.Get(doc, "max_itens"), rooms))
  }

  predicate StringValued(fields: map<string, Json>) {
    forall n :: n in fields ==> fields[n].Str?
  }

  /** A record the game can play in: an object of string items, and direction
      exits that can be used as room-table keys. */
  predicate Usable(rec: RoomRecord) {
    && rec.itens.Some? && rec.itens.value.Obj? && StringValued(rec.itens.value.fields)
    && forall d :: d in Directions && d in rec.exits ==> Hashable(rec.exits[d])
  }

  function StringItems(fields: map<string, Json>): (items: map<string, string>)
    requires StringValued(fields)
    ensures items.Keys == fields.Keys
    ensures forall n :: n in items ==> fields[n] == Str(items[n])
  {
    map n | n in fields :: fields[n].s
  }

  /** The room named `name`, built from its record with the four fields a
      room stores. */
  function ToRoom(name: string, rec: RoomRecord): (room: Room)
    requires Usable(rec)
    ensures room.name == name && room.description == rec.description && room.exits == rec.exits
    ensures room.items.Keys == rec.itens.value.fields.Keys
    ensures forall n :: n in room.items ==> rec.itens.value.fields[n] == Str(room.items[n])
  {
    Room(name, rec.description, rec.exits, StringItems(rec.itens.value.fields))
  }

  /** Types every room record, or names the records that cannot be typed. */
  function Build(layout: Layout): (r: Result<GameMap, LoadError>)
    ensures r.Failure? <==> exists k :: k in layout.rooms && !Usable(layout.rooms[k])
    ensures r.Success? ==> WellFormed(r.value)
    ensures r.Success? ==> r.value.rooms.Keys == layout.rooms.Keys
    ensures r.Success? ==> forall k :: k in r.value.rooms ==>
      r.value.rooms[k].exits == layout.rooms[k].exits && r.value.rooms[k].description == layout.rooms[k].description
    ensures r.Success? ==> forall k :: k in r.value.rooms ==>
      && layout.rooms[k].itens.Some? && layout.rooms[k].itens.value.Obj?
      && r.value.rooms[k].items.Keys == layout.rooms[k].itens.value.fields.Keys
    ensures r.Success? ==> forall k, n :: k in r.value.rooms && n in r.value.rooms[k].items ==>
      layout.rooms[k].itens.value.fields[n] == Str(r.value.rooms[k].items[n])
    ensures r.Success? ==> r.value.startRoomName == layout.startRoomName
    ensures r.Success? ==> r.value.exitRoomName == layout.exitRoomName
    ensures r.Success? ==> r.value.maxItens == layout.maxItens
  {
    if forall k :: k in layout.rooms ==> Usable(layout.rooms[k]) then
      var rooms := map k | k in layout.rooms :: ToRoom(k, layout.rooms[k]);
      Success(GameMap(rooms, layout.startRoomName, layout.exitRoomName, layout.maxItens))
    else
      Failure(UnusableRooms(set k | k in layout.rooms && !Usable(layout.rooms[k])))
  }

  /** The whole load step over an already-parsed document: a room entry that
      is not an object fails it, and the settings are read with `.get`. */
  function Load(doc: map<string, Json>): (r: Result<GameMap, LoadError>)
    ensures (exists k :: k in doc && k !in Reserved && !doc[k].Obj?) ==> r == Failure(Partition(doc).error)
    ensures r.Success? ==> r.value.startRoomName == Dict.Get(doc, "main")
    ensures r.Success? ==> r.value.exitRoomName == Dict.Get(doc, "exit")
    ensures r.Success? ==> r.value.maxItens == Dict.Get(doc, "max_itens")
  {
    match Partition(doc)
    case Failure(e) => Failure(e)
    case Success(layout) => Build(layout)
  }

  /** Every top-level key except the three settings becomes a room of the
      same name. Its description is the record's `description`, its exits are
      its other keys except `itens` with their values, and its items are the
      entries of its `itens` object. */
  lemma LoadRooms(doc: map<string, Json>)
    requires Load(doc).Success?
    ensures var gm := Load(doc).value;
      && WellFormed(gm)
      && gm.rooms.Keys == doc.Keys - Reserved
      && forall k :: k in gm.rooms ==>
           && gm.rooms[k].name == k
           && gm.rooms[k].description == Dict.Get(doc[k].fields, "description")
           && gm.rooms[k].exits.Keys == doc[k].fields.Keys - RoomFields
           && (forall d :: d in gm.rooms[k].exits ==> gm.rooms[k].exits[d] == doc[k].fields[d])
           && "itens" in doc[k].fields && doc[k].fields["itens"].Obj?
           && gm.rooms[k].items.Keys == doc[k].fields["itens"].fields.Keys
           && (forall n :: n in gm.rooms[k].items ==> doc[k].fields["itens"].fields[n] == Str(gm.rooms[k].items[n]))
  {
    var layout := Partition(doc).value;
    assert Load(doc) == Build(layout);
  }

  /** `get_room`: the room of that name, or `None`; never fails. */
  function GetRoom(gm: GameMap, name: string): (r: Option<Room>)
    ensures r.Some? <==> name in gm.rooms
    ensures r.Some? ==> r.value == gm.rooms[name]
  {
    Dict.Get(gm.rooms, name)
  }

  /** `get_start_room`: the room the `main` setting names. A missing or
      non-string setting finds no room. */
  function GetStartRoom(gm: GameMap): (r: Option<Room>)
    requires gm.startRoomName.Some? ==> Hashable(gm.startRoomName.value)
    ensures gm.startRoomName.Some? && gm.startRoomName.value.Str? ==> r == GetRoom(gm, gm.startRoomName.value.s)
    ensures r.Some? ==> gm.startRoomName.Some? && gm.startRoomName.value.Str? && gm.startRoomName.value.s in gm.rooms
  {
    match gm.startRoomName
    case Some(Str(n)) => GetRoom(gm, n)
    case _ => None
  }

  /** `get_exit_room_name`: the `exit` setting as read. */
  function GetExitRoomName(gm: GameMap): (r: Option<Json>)
    ensures r == gm.exitRoomName
  {
    gm.exitRoomName
  }

  /** The exit room name is exactly the `exit` value of the document. */
  lemma LoadExitRoomName(doc: map<string, Json>)
    requires Load(doc).Success?
    ensures GetExitRoomName(Load(doc).value) == Dict.Get(doc, "exit")
  {
  }
}

=== FILE: json.dfy ===
/** The already-parsed JSON document the map loader works on. Numbers are
    integers only; floating point values are not modelled. */
module Json {

  datatype Json =
    | Null
    | Bool(b: bool)
    | Num(n: int)
    | Str(s: string)
    | Arr(elems: seq<Json>)
    | Obj(fields: map<string, Json>)

  /** Python can use the value as a dictionary key: lists and dicts are
      unhashable and make `dict.get` raise `TypeError`. */
  predicate Hashable(j: Json) {
    !j.Arr? && !j.Obj?
  }
}

=== FILE: player.dfy ===
/** The player: the room they are in, the items they carry and how many
    items they may carry. */
module Player {
  import opened Wrappers
  import Dict

  /** `currentRoom` names the room in the map; `itens` maps item name to
      description. */
  datatype Player = Player(currentRoom: string, itens: map<string, string>, maxItens: int)

  /** The inventory holds no more items than the limit. */
  predicate WithinCapacity(p: Player) {
    |p.itens| <= p.maxItens
  }

  /** Moves the player to another room; the inventory and its limit stay. */
  function Move(p: Player, nextRoom: string): (p': Player)
    ensures p'.currentRoom == nextRoom
    ensures p'.itens == p.itens && p'.maxItens == p.maxItens
  {
    p.(currentRoom := nextRoom)
  }

  /** Adds an item while the inventory has room for it; reports whether it did. */
  function TakeItem(p: Player, itemName: string, itemDescription: string): (r: (Player, bool))
    ensures r.1 <==> |p.itens| < p.maxItens
    ensures r.1 ==> itemName in r.0.itens && r.0.itens[itemName] == itemDescription
    ensures r.1 ==> r.0.itens.Keys == p.itens.Keys + {itemName}
    ensures r.1 ==> forall k :: k in p.itens && k != itemName ==> r.0.itens[k] == p.itens[k]
    ensures !r.1 ==> r.0 == p
    ensures r.0.currentRoom == p.currentRoom && r.0.maxItens == p.maxItens
    ensures WithinCapacity(p) ==> WithinCapacity(r.0)
  {
    if |p.itens| < p.maxItens then
      (p.(itens := p.itens[itemName := itemDescription]), true)
    else
      (p, false)
  }

  /** Removes a carried item and yields its description; `None` and the same
      player when the item is not carried. */
  function DropItem(p: Player, itemName: string): (r: (Player, Option<string>))
    ensures r.1.Some? <==> itemName in p.itens
    ensures r.1.Some? ==> r.1.value == p.itens[itemName]
    ensures r.1.Some? ==> r.0.itens.Keys == p.itens.Keys - {itemName} && |r.0.itens| == |p.itens| - 1
    ensures forall k :: k in r.0.itens ==> k in p.itens && r.0.itens[k] == p.itens[k]
    ensures r.1.None? ==> r.0 == p
    ensures r.0.currentRoom == p.currentRoom && r.0.maxItens == p.maxItens
    ensures WithinCapacity(p) ==> WithinCapacity(r.0)
  {
    if itemName in p.itens then
      var (itens', found) := Dict.Pop(p.itens, itemName);
      (p.(itens := itens'), found)
    else
      (p, None)
  }

  /** Taking a new item and dropping it again gives back its description and
      the original inventory. */
  lemma TakeThenDrop(p: Player, itemName: string, itemDescription: string)
    requires itemName !in p.itens
    requires |p.itens| < p.maxItens
    ensures var (p1, ok) := TakeItem(p, itemName, itemDescription);
            ok && DropItem(p1, itemName) == (p, Some(itemDescription))
  {
    Dict.StoreThenPop(p.itens, itemName, itemDescription);
  }

  /** Dropping a carried item and taking it back restores the inventory. */
  lemma DropThenTake(p: Player, itemName: string)
    requires itemName in p.itens
    requires WithinCapacity(p)
    ensures var (p1, d) := DropItem(p, itemName);
            d.Some? && TakeItem(p1, itemName, d.value) == (p, true)
  {
    Dict.PopThenStore(p.itens, itemName);
  }
}

=== FILE: room.dfy ===
/** A room of the map: its name, description, exits and the items lying in
    it. Only the item store changes during play. */
module Room {
  import opened Wrappers
  import opened Json
  import Dict

  /** `exits` keeps every key of the room's record except `description` and
      `itens`, with its raw JSON value; `items` maps item name to description. */
  datatype Room = Room(
    name: string,
    description: Option<Json>,
    exits: map<string, Json>,
    items: map<string, string>)

  /** Item operations touch nothing but `items`. */
  predicate SameFixture(a: Room, b: Room) {
    a.name == b.name && a.description == b.description && a.exits == b.exits
  }

  /** Takes an item out of the room: its description when it was there, and
      the room without it; `None` and the same room otherwise. */
  function GetItem(room: Room, itemName: string): (r: (Room, Option<string>))
    ensures SameFixture(r.0, room)
    ensures r.1.Some? <==> itemName in room.items
    ensures r.1.Some? ==> r.1.value == room.items[itemName]
    ensures r.1.Some? ==> r.0.items.Keys == room.items.Keys - {itemName}
    ensures r.1.None? ==> r.0 == room
    ensures forall k :: k in r.0.items ==> k in room.items && r.0.items[k] == room.items[k]
  {
    var (items', found) := Dict.Pop(room.items, itemName);
    (room.(items := items'), found)
  }

  /** Puts an item into the room, replacing any item of the same name. */
  function AddItem(room: Room, itemName: string, itemDescription: string): (r: Room)
    ensures SameFixture(r, room)
    ensures itemName in r.items && r.items[itemName] == itemDescription
    ensures r.items.Keys == room.items.Keys + {itemName}
    ensures forall k :: k in room.items && k != itemName ==> r.items[k] == room.items[k]
  {
    room.(items := room.items[itemName := itemDescription])
  }

  /** Taking a present item out and putting the result back restores the room. */
  lemma GetThenAddRestores(room: Room, itemName: string)
    requires itemName in room.items
    ensures var (r1, d) := GetItem(room, itemName);
            d.Some? && AddItem(r1, itemName, d.value) == room
  {
    Dict.PopThenStore(room.items, itemName);
  }

  /** Adding an item under a fresh name and taking it out again yields the
      item and the original room. */
  lemma AddThenGetRestores(room: Room, itemName: string, itemDescription: string)
    requires itemName !in room.items
    ensures GetItem(AddItem(room, itemName, itemDescription), itemName) == (room, Some(itemDescription))
  {
    Dict.StoreThenPop(room.items, itemName, itemDescription);
  }
}

=== FILE: text.dfy ===
/** The two string operations the command interpreter applies to a line:
    `str.lower()` and `str.split()` with no separator, plus `str.upper()`
    for the direction echoed back after a move. */
module Text {

  /** The characters `str.isspace()` accepts, which are the separators of
      `str.split()` with no argument. */
  predicate IsSpace(c: char) {
    || c == ' '
    || ('\t' <= c <= '\r')
    || ('\U{1c}' <= c <= '\U{1f}')
    || c == '\U{85}' || c == '\U{a0}' || c == '\U{1680}'
    || ('\U{2000}' <= c <= '\U{200a}')
    || c == '\U{2028}' || c == '\U{2029}' || c == '\U{202f}' || c == '\U{205f}'
    || c == '\U{3000}'
  }

  predicate AllSpace(s: string) {
    forall i :: 0 <= i < |s| ==> IsSpace(s[i])
  }

  /** A token `split()` can produce: non-empty and free of whitespace. */
  predicate IsWord(w: string) {
    |w| > 0 && forall i :: 0 <= i < |w| ==> !IsSpace(w[i])
  }

  /** Upper-case letters of the ASCII and Latin-1 ranges, which `lower()`
      maps 32 code points up. */
  predicate IsUpperLetter(c: char) {
    ('A' <= c <= 'Z') || ('\U{c0}' <= c <= '\U{de}' && c != '\U{d7}')
  }

  function LowerChar(c: char): (d: char)
    ensures IsSpace(d) <==> IsSpace(c)
    ensures !IsUpperLetter(d)
  {
    if IsUpperLetter(c) then (c as int + 32) as char else c
  }

  /** `s.lower()` over the letters modelled by `IsUpperLetter`. */
  function Lower(s: string): (r: string)
    ensures |r| == |s|
    ensures forall i :: 0 <= i < |s| && IsUpperLetter(s[i]) ==> r[i] as int == s[i] as int + 32
    ensures forall i :: 0 <= i < |s| && !IsUpperLetter(s[i]) ==> r[i] == s[i]
    ensures forall i :: 0 <= i < |s| ==> r[i] == LowerChar(s[i])
  {
    seq(|s|, i requires 0 <= i < |s| => LowerChar(s[i]))
  }

  predicate IsLower(s: string) {
    forall i :: 0 <= i < |s| ==> !IsUpperLetter(s[i])
  }

  /** Lowering is idempotent: an already lower-cased line is left alone. */
  lemma LowerFixesLower(s: string)
    requires IsLower(s)
    ensures Lower(s) == s
  {
  }

  lemma LowerIdempotent(s: string)
    ensures IsLower(Lower(s))
    ensures Lower(Lower(s)) == Lower(s)
  {
    LowerFixesLower(Lower(s));
  }

  /** Lowering neither creates nor removes whitespace. */
  lemma LowerKeepsSpace(s: string)
    ensures AllSpace(Lower(s)) <==> AllSpace(s)
  {
  }

  /** `s.upper()` over ASCII letters; it is only applied to the four
      Portuguese direction words. */
  function Upper(s: string): (r: string)
    ensures |r| == |s|
    ensures forall i :: 0 <= i < |s| ==> ('a' <= s[i] <= 'z' ==> r[i] as int == s[i] as int - 32)
    ensures forall i :: 0 <= i < |s| ==> (!('a' <= s[i] <= 'z') ==> r[i] == s[i])
  {
    seq(|s|, i requires 0 <= i < |s| => if 'a' <= s[i] <= 'z' then (s[i] as int - 32) as char else s[i])
  }

  /** Length of the whitespace run that starts `s`. */
  function SpaceRun(s: string): (n: nat)
    ensures n <= |s|
    ensures forall i :: 0 <= i < n ==> IsSpace(s[i])
    ensures n < |s| ==> !IsSpace(s[n])
  {
    if s == [] || !IsSpace(s[0]) then 0 else 1 + SpaceRun(s[1..])
  }

  /** Length of the non-whitespace run that starts `s`. */
  function WordRun(s: string): (n: nat)
    ensures n <= |s|
    ensures forall i :: 0 <= i < n ==> !IsSpace(s[i])
    ensures n < |s| ==> IsSpace(s[n])
  {
    if s == [] || IsSpace(s[0]) then 0 else 1 + WordRun(s[1..])
  }

  /** `s.split()`: the maximal whitespace-free runs of `s`, in order. */
  function Split(s: string): (words: seq<string>)
    ensures forall i :: 0 <= i < |words| ==> IsWord(words[i])
    ensures words == [] <==> AllSpace(s)
    decreases |s|
  {
    var k := SpaceRun(s);
    if k == |s| then []
    else
      var t := s[k..];
      var n := WordRun(t);
      [t[..n]] + Split(t[n..])
  }

  /** Splitting a lower-cased line yields lower-cased words. */
  lemma {:induction false} SplitKeepsLower(s: string)
    requires IsLower(s)
    ensures forall i :: 0 <= i < |Split(s)| ==> IsLower(Split(s)[i])
    decreases |s|
  {
    var k := SpaceRun(s);
    if k < |s| {
      var t := s[k..];
      var n := WordRun(t);
      assert IsLower(t[..n]);
      SplitKeepsLower(t[n..]);
      assert Split(s) == [t[..n]] + Split(t[n..]);
    }
  }

  /** The words joined by single spaces: the canonical line that `Split`
      takes apart. */
  function Join(words: seq<string>): string {
    if words == [] then ""
    else if |words| == 1 then words[0]
    else words[0] + " " + Join(words[1..])
  }

  /** Leading whitespace does not change the split. */
  lemma {:induction false} SplitSkipsLeadingSpace(s: string)
    requires s != [] && IsSpace(s[0])
    ensures Split(s) == Split(s[1..])
  {
    var k := SpaceRun(s);
    assert k == 1 + SpaceRun(s[1..]);
    assert s[k..] == s[1..][SpaceRun(s[1..])..];
  }

  /** A word followed by whitespace or the end of the line is split off whole. */
  lemma {:induction false} WordRunOfWord(w: string, rest: string)
    requires IsWord(w)
    requires rest == [] || IsSpace(rest[0])
    ensures WordRun(w + rest) == |w|
    decreases |w|
  {
    if |w| > 1 {
      assert (w + rest)[1..] == w[1..] + rest;
      WordRunOfWord(w[1..], rest);
    } else {
      assert (w + rest)[1..] == rest;
    }
  }

  /** A line that starts with a word splits into that word and the split of
      what follows it. */
  lemma SplitAtWord(s: string)
    requires s != [] && !IsSpace(s[0])
    ensures Split(s) == [s[..WordRun(s)]] + Split(s[WordRun(s)..])
  {
    assert SpaceRun(s) == 0;
    assert s[0..] == s;
  }

  /** A word followed by whitespace or the end of the line is the first
      token of the split. */
  lemma SplitWord(w: string, rest: string)
    requires IsWord(w)
    requires rest == [] || IsSpace(rest[0])
    ensures Split(w + rest) == [w] + Split(rest)
  {
    var s := w + rest;
    WordRunOfWord(w, rest);
    SplitAtWord(s);
    assert s[..|w|] == w && s[|w|..] == rest;
  }

  /** Leading whitespace of any length does not change the split. */
  lemma {:induction false} SplitSkipsSpace(s: string, k: nat)
    requires k <= |s| && forall i :: 0 <= i < k ==> IsSpace(s[i])
    ensures Split(s) == Split(s[k..])
    decreases k
  {
    if k > 0 {
      SplitSkipsLeadingSpace(s);
      SplitSkipsSpace(s[1..], k - 1);
      assert s[1..][k - 1..] == s[k..];
    }
  }

  /** A word between whitespace and whitespace or the end of the line is the
      first token of the split. */
  lemma SplitCons(sep: string, w: string, rest: string)
    requires AllSpace(sep) && IsWord(w)
    requires rest == [] || IsSpace(rest[0])
    ensures Split(sep + w + rest) == [w] + Split(rest)
  {
    var s := sep + w + rest;
    assert forall i :: 0 <= i < |sep| ==> s[i] == sep[i];
    assert s[|sep|..] == w + rest;
    SplitSkipsSpace(s, |sep|);
    SplitWord(w, rest);
  }

  /** Round trip: splitting the joined words gives the words back. */
  lemma {:induction false} SplitJoin(words: seq<string>)
    requires forall i :: 0 <= i < |words| ==> IsWord(words[i])
    ensures Split(Join(words)) == words
    decreases |words|
  {
    if words != [] {
      var w := words[0];
      if |words| == 1 {
        assert Join(words) == "" + w + "";
        SplitCons("", w, "");
        assert Split("") == [];
      } else {
        var rest := " " + Join(words[1..]);
        assert Join(words) == "" + w + rest;
        SplitCons("", w, rest);
        SplitSkipsLeadingSpace(rest);
        assert rest[1..] == Join(words[1..]);
        SplitJoin(words[1..]);
        assert [w] + words[1..] == words;
      }
    }
  }

  /** The words laid out with arbitrary whitespace: `seps[0]` before the
      first word, `seps[i]` between word `i - 1` and word `i`, and the last
      separator after the last word. */
  function Interleave(words: seq<string>, seps: seq<string>): string
    requires |seps| == |words| + 1
    decreases |words|
  {
    if words == [] then seps[0] else seps[0] + words[0] + Interleave(words[1..], seps[1..])
  }

  /** Separators of `n` words: all whitespace, and non-empty between two
      words; the leading and trailing ones may be empty. */
  predicate Separators(seps: seq<string>, n: nat) {
    && |seps| == n + 1
    && (forall i :: 0 <= i < |seps| ==> AllSpace(seps[i]))
    && (forall i :: 0 < i < n ==> seps[i] != [])
  }

  lemma SeparatorsTail(seps: seq<string>, n: nat)
    requires n > 0 && Separators(seps, n)
    ensures Separators(seps[1..], n - 1)
  {
    forall i | 0 < i < n - 1
      ensures seps[1..][i] != []
    {
      assert seps[1..][i] == seps[i + 1];
    }
  }

  /** A line laid out after the first word starts with whitespace or is empty. */
  lemma InterleaveTailStart(words: seq<string>, seps: seq<string>)
    requires |words| > 0 && Separators(seps, |words|)
    ensures var rest := Interleave(words[1..], seps[1..]);
      rest == [] || IsSpace(rest[0])
  {
    var rest := Interleave(words[1..], seps[1..]);
    if |words| > 1 {
      assert rest == seps[1] + words[1] + Interleave(words[2..], seps[2..]);
      assert rest[0] == seps[1][0];
    } else {
      assert rest == seps[1];
    }
  }

  /** `split()` returns exactly the words, however much whitespace of
      whatever kind surrounds and separates them. */
  lemma {:induction false} SplitInterleave(words: seq<string>, seps: seq<string>)
    requires forall i :: 0 <= i < |words| ==> IsWord(words[i])
    requires Separators(seps, |words|)
    ensures Split(Interleave(words, seps)) == words
    decreases |words|
  {
    if words != [] {
      var rest := Interleave(words[1..], seps[1..]);
      SeparatorsTail(seps, |words|);
      InterleaveTailStart(words, seps);
      assert Interleave(words, seps) == seps[0] + words[0] + rest;
      SplitCons(seps[0], words[0], rest);
      SplitInterleave(words[1..], seps[1..]);
      assert [words[0]] + words[1..] == words;
    }
  }

  /** Lower-cased words laid out with whitespace give a lower-cased line:
      no whitespace character is an upper-case letter. */
  lemma {:induction false} InterleaveKeepsLower(words: seq<string>, seps: seq<string>)
    requires forall i :: 0 <= i < |words| ==> IsLower(words[i])
    requires |seps| == |words| + 1 && forall i :: 0 <= i < |seps| ==> AllSpace(seps[i])
    ensures IsLower(Interleave(words, seps))
    decreases |words|
  {
    assert IsLower(seps[0]);
    if words != [] {
      InterleaveKeepsLower(words[1..], seps[1..]);
    }
  }

  /** Joining lower-cased words yields a lower-cased line. */
  lemma {:induction false} JoinKeepsLower(words: seq<string>)
    requires forall i :: 0 <= i < |words| ==> IsLower(words[i])
    ensures IsLower(Join(words))
    decreases |words|
  {
    if |words| > 1 {
      JoinKeepsLower(words[1..]);
      assert IsLower(" ");
    }
  }
}

=== FILE: wrappers.dfy ===
/** Optional values and results, standing in for Python's `None` returns and
    for the errors a loader can raise. */
module Wrappers {

  /** A value or nothing: Python's `None` in the positions where the game
      returns "no such item" or "no such room". */
  datatype Option<+T> = None | Some(value: T)

  /** A value or an error: used where the Python program would raise. */
  datatype Result<+R, +E> = Success(value: R) | Failure(error: E)
}
